=== FILE: README.md ===
# Player data, accounts, texture spawning and the staff pickup — a Dafny model

This project models the decision logic inside the scripts of a small Unity game that uses Firebase. There are four pieces.

- **Player-data persistence** (`PlayerDataManager` over the `PlayerData` record). A save goes to the signed-in user's database path `users/{userId}/playerData` and to the single local file `PlayerGameData.json`. With no user signed in, it goes to the local file only. A load reads the database when a user is signed in and the local file otherwise, with no fallback between them. When the user's database entry is missing, or the local file is absent, the load delivers the all-zero record. A faulted or canceled database read never calls back. On start-up, a loaded non-default record is adopted as it is. A default record is replaced by the baseline (checkpoint 1, 5 hp), which is saved and then adopted.
- **Local account registry** (`UserAccount`, `AccountList`, `FirebaseAuthenticationNewUser`, `UsersLogin`). This covers:
  - the ordered sign-up checks: empty fields, then e-mail shape, then password length of at least 6, then confirmation match;
  - case-insensitive duplicate detection;
  - appending on save;
  - the slot guards of the confirm and delete buttons;
  - delete-by-slot;
  - the slot labels.
- **Texture-to-prefab spawning** (both `PrefabSpawnerBaseOnTextureReading.cs` variants). Assets are looked up by case-insensitive substring, and the first match wins. The prefab list is built in desired-name order. Generation has guards. The clearing loop, as written, leaves the odd-positioned children in place (see Findings). Pixels are walked with x in the outer loop and y in the inner loop, and each pixel spawns the prefab of its first matching colour. Colour matching and the terrain raycast are predicates passed in as parameters.
- **The staff pickup latch** (`MeleeUnlockable`). Start-up disables the pickup. The first trigger by the player while the pickup is active grants the weapon once.

Everything is a pure function or a short method over immutable datatypes.
- The database and the local file are slots.
- Asynchronous Firebase tasks are represented by how they end: `TaskStatus`.
- The engine's `LoadAsset`, `GetPixel`, colour matching and raycasts are function parameters.

Facts about the code that shape the model:
- `PlayerDataManager.cs` keeps one local file, `PlayerGameData.json`, whoever is signed in.
- A load has no fallback from the database to the local file.
- A record counts as default when its four counters are zero; the sword flag plays no part.
- `PlayerDataManager.cs` has no coin-threshold rule and no observer registry.
- `MeleeUnlockable.cs` uses `PlayerDataManager.instance` and calls `UpdateWeaponPickupState`, `RegisterWeaponPickup` and `RecordSwordUnlockEvent`, but `PlayerDataManager.cs` defines none of them. The model records the three methods as calls. Whether the instance exists is a parameter. The effect of the two start-up calls (`UpdateWeaponPickupState`, then `RegisterWeaponPickup`) on the pickup is a parameter of `Start`.

Files:
- `wrappers.dfy`: `Option`.
- `strings.dfy`: `Contains`, `EndsWith`, ASCII `ToLower`, the UTF-16 `Length`, ignore-case equality.
- `search.dfy`: first-match search and in-order collection.
- `player_data.dfy`: the `PlayerData` record.
- `player_data_manager.dfy`: persistence policy.
- `user_account.dfy`: account records.
- `sign_up.dfy`: the sign-up form.
- `users_login.dfy`: the login screen.
- `texture_spawning.dfy`: generation shared by both spawners.
- `bundle_prefab_spawner.dfy`: the asset-bundle spawner.
- `melee_unlockable.dfy`: the staff pickup.

## Model

| member | source | states |
|---|---|---|
| PlayerRecord.NewPlayerData | Assets/GPG214.2DanaTaha24T3/DanasSscripts/GeneralGame/PlayerData.cs:13-20 | The constructor stores checkpoint, hp, enemiesKilled, coinsCollected and isSwordUnlocked exactly as passed. |
| PlayerRecord.EveryRecordIsConstructible | Assets/GPG214.2DanaTaha24T3/DanasSscripts/GeneralGame/PlayerData.cs:13-20 | There is no validation: every record, including ones with negative hp or coins, is built by some constructor call. |
| PlayerRecord.UnconstructedIsZero | Assets/GPG214.2DanaTaha24T3/DanasSscripts/GeneralGame/PlayerData.cs:2-10 | The unconstructed struct value has every counter 0 and the sword locked. |
| PlayerDataManager.RemoteKey | Assets/GPG214.2DanaTaha24T3/DanasSscripts/GeneralGame/PlayerDataManager.cs:114 | The database path is `users/` + userId + `/playerData`, and the user id can be read back from it. |
| PlayerDataManager.RemoteKeyInjective | Assets/GPG214.2DanaTaha24T3/DanasSscripts/GeneralGame/PlayerDataManager.cs:99 | Two users share a database path exactly when they are the same user. |
| PlayerDataManager.SavePlayerData | Assets/GPG214.2DanaTaha24T3/DanasSscripts/GeneralGame/PlayerDataManager.cs:33-46 | Signed in: the record goes to the user's path (when the write completes) and to the local file. Signed out: only the local file changes. No other database entry changes. |
| PlayerDataManager.SaveDataToFirebase | Assets/GPG214.2DanaTaha24T3/DanasSscripts/GeneralGame/PlayerDataManager.cs:95-110 | A completed write stores the record at the user's path. A faulted or canceled write leaves the database as it was. Every other path keeps its presence and its value. |
| PlayerDataManager.LocalSaveThenLoad | Assets/GPG214.2DanaTaha24T3/DanasSscripts/GeneralGame/PlayerDataManager.cs:140-161 | `SaveDataLocally` replaces the file's content, so a local load after it delivers the saved record whatever the file held before. |
| PlayerDataManager.SaveLeavesOtherUsers | Assets/GPG214.2DanaTaha24T3/DanasSscripts/GeneralGame/PlayerDataManager.cs:95-110 | A signed-in save leaves what any other user would load unchanged. |
| PlayerDataManager.LocalFileIsShared | Assets/GPG214.2DanaTaha24T3/DanasSscripts/GeneralGame/PlayerDataManager.cs:24-46 | There is one local file whoever is signed in: a signed-out load sees the record a signed-in save wrote. |
| PlayerDataManager.LoadDataFromFirebase | Assets/GPG214.2DanaTaha24T3/DanasSscripts/GeneralGame/PlayerDataManager.cs:112-138 | A faulted or canceled read never calls back. A completed read delivers the stored record, or the all-zero record when the snapshot does not exist. |
| PlayerDataManager.LoadDataLocally | Assets/GPG214.2DanaTaha24T3/DanasSscripts/GeneralGame/PlayerDataManager.cs:147-161 | A local load always calls back: with the file's record, or with the all-zero record when there is no file. |
| PlayerDataManager.LoadPlayerData | Assets/GPG214.2DanaTaha24T3/DanasSscripts/GeneralGame/PlayerDataManager.cs:51-63 | Signed in, only the database is read. Signed out, only the local file is read. |
| PlayerDataManager.LoadReadsOneBackend | Assets/GPG214.2DanaTaha24T3/DanasSscripts/GeneralGame/PlayerDataManager.cs:51-63 | There is no fallback: a signed-in load does not depend on the local file, and a signed-out load does not depend on the database. |
| PlayerDataManager.SaveThenLoadSameBackend | Assets/GPG214.2DanaTaha24T3/DanasSscripts/GeneralGame/PlayerDataManager.cs:30-63 | A save and a later load in the same sign-in state use the same backend, so the load delivers the saved record. |
| PlayerDataManager.DefaultMeansUnconstructed | Assets/GPG214.2DanaTaha24T3/DanasSscripts/GeneralGame/PlayerDataManager.cs:89-92 | `IsDefaultPlayerData` holds exactly when checkpoint, hp, enemiesKilled and coinsCollected are all 0. The sword flag is ignored. |
| PlayerDataManager.FirstRunBaseline | Assets/GPG214.2DanaTaha24T3/DanasSscripts/GeneralGame/PlayerDataManager.cs:81 | The baseline has checkpoint 1, hp 5, no kills and no coins, and it is not a default record. |
| PlayerDataManager.TryLoadPlayerData | Assets/GPG214.2DanaTaha24T3/DanasSscripts/GeneralGame/PlayerDataManager.cs:67-87 | With no callback, nothing is adopted or saved. A non-default record is adopted unchanged and not re-saved. A default record leads to the baseline, which is saved and then adopted. An adopted record is never default. |
| PlayerDataManager.FailedRemoteReadDoesNothing | Assets/GPG214.2DanaTaha24T3/DanasSscripts/GeneralGame/PlayerDataManager.cs:114-119 | A faulted or canceled database read at start-up sets nothing up and saves nothing. |
| PlayerDataManager.SignedOutStartAdopts | Assets/GPG214.2DanaTaha24T3/DanasSscripts/GeneralGame/PlayerDataManager.cs:67-87 | Signed out, start-up adopts the local record when it is non-default and the baseline otherwise. The database is never touched. |
| PlayerDataManager.StartUpIsStable | Assets/GPG214.2DanaTaha24T3/DanasSscripts/GeneralGame/PlayerDataManager.cs:77-92 | After a start-up whose tasks complete, the next start-up adopts the same record and writes nothing. First-run initialisation does not repeat. |
| UserAccounts.NewUserAccount | Assets/GPG214.2DanaTaha24T3/DanasSscripts/MainMenu/UserAccount.cs:14-20 | The constructor stores username, email, userId and the password verbatim. |
| UserAccounts.NewAccountList | Assets/GPG214.2DanaTaha24T3/DanasSscripts/MainMenu/UserAccount.cs:28-31 | An `AccountList` holds the given accounts, in the given order. |
| UserAccounts.AccountListAdmitsDuplicates | Assets/GPG214.2DanaTaha24T3/DanasSscripts/MainMenu/UserAccount.cs:24-32 | No uniqueness is enforced: a list can hold the same account twice. |
| NewUserSignUp.IsValidEmail | Assets/GPG214.2DanaTaha24T3/DanasSscripts/MainMenu/FirebaseAuthenticationNewUser.cs:172-175 | An e-mail is valid exactly when it contains `@` at some position and ends with `.com`. |
| NewUserSignUp.OnSignUpButton | Assets/GPG214.2DanaTaha24T3/DanasSscripts/MainMenu/FirebaseAuthenticationNewUser.cs:39-72 | The checks run in order: empty field, then e-mail, then a length under 6 UTF-16 code units, then mismatch. Each verdict holds exactly when its check fails and all earlier checks pass. Registration is reached only when all four pass. |
| NewUserSignUp.MinimumLengthPasswordPasses | Assets/GPG214.2DanaTaha24T3/DanasSscripts/MainMenu/FirebaseAuthenticationNewUser.cs:57-61 | A password of exactly 6 UTF-16 code units, confirmed, is accepted. |
| NewUserSignUp.AstralPasswordCountsTwice | Assets/GPG214.2DanaTaha24T3/DanasSscripts/MainMenu/FirebaseAuthenticationNewUser.cs:57 | `password.Length` counts UTF-16 code units, so three emoji from outside the Basic Multilingual Plane have length 6 and pass the length check. |
| NewUserSignUp.FeedbackIdentifiesVerdict | Assets/GPG214.2DanaTaha24T3/DanasSscripts/MainMenu/FirebaseAuthenticationNewUser.cs:46-69 | Each verdict shows its own message. The success message appears exactly when every check passes. |
| Strings.Utf16Length | Assets/GPG214.2DanaTaha24T3/DanasSscripts/MainMenu/FirebaseAuthenticationNewUser.cs:57 | `string.Length` is the character count plus the number of characters outside the Basic Multilingual Plane. So it lies between the character count and twice it, and equals the character count exactly when every character is in that plane. |
| NewUserSignUp.LoadAccounts | Assets/GPG214.2DanaTaha24T3/DanasSscripts/MainMenu/FirebaseAuthenticationNewUser.cs:166-171 | A missing file, or one that parses to null, gives the empty list. Otherwise the result is the parsed list. |
| NewUserSignUp.AccountExistsLocally | Assets/GPG214.2DanaTaha24T3/DanasSscripts/MainMenu/FirebaseAuthenticationNewUser.cs:123-136 | True exactly when some stored account has the same e-mail or the same username, ignoring case. |
| NewUserSignUp.SaveAccountLocally | Assets/GPG214.2DanaTaha24T3/DanasSscripts/MainMenu/FirebaseAuthenticationNewUser.cs:156-165 | The written list is the loaded list with exactly one new account, holding the given fields, appended at the end. Earlier accounts stay unchanged and in order. |
| NewUserSignUp.SavedAccountBlocksSameEmail | Assets/GPG214.2DanaTaha24T3/DanasSscripts/MainMenu/FirebaseAuthenticationNewUser.cs:123-161 | Once an account is saved, a sign-up with the same e-mail in any letter case clashes with the saved list. |
| UsersLogin.LoadAccounts | Assets/GPG214.2DanaTaha24T3/DanasSscripts/MainMenu/UsersLogin.cs:97-102 | A missing file leaves the in-memory list unchanged. A file that parses to null gives the empty list. Otherwise the result is the parsed list. |
| UsersLogin.LoadersAgreeOnPresentFile | Assets/GPG214.2DanaTaha24T3/DanasSscripts/MainMenu/UsersLogin.cs:97-102 | The login screen and the sign-up form read a present file the same way. They differ only on a missing file. |
| UsersLogin.OnConfirmButtonPressed | Assets/GPG214.2DanaTaha24T3/DanasSscripts/MainMenu/UsersLogin.cs:53-70 | A slot outside [0, count) is rejected, and so is an empty password. An account slot with no password field throws at the array access, reported as `InputFieldMissing`. In these cases no sign-in is attempted. Otherwise sign-in uses the slot's e-mail and the entered password. |
| UsersLogin.OnDeleteButtonPressed | Assets/GPG214.2DanaTaha24T3/DanasSscripts/MainMenu/UsersLogin.cs:75-88 | An out-of-range slot changes nothing. Otherwise exactly the slot's account is removed and the count drops by one. The other accounts keep their order, the new list is written, and the player is no longer authenticated. |
| UsersLogin.DeleteThenReinsertRestores | Assets/GPG214.2DanaTaha24T3/DanasSscripts/MainMenu/UsersLogin.cs:83 | Re-inserting the deleted account at its slot restores the original list. The remaining multiset plus the removed account equals the original. |
| UsersLogin.UpdateSlots | Assets/GPG214.2DanaTaha24T3/DanasSscripts/MainMenu/UsersLogin.cs:110-123 | Slot i shows the i-th username when there is an i-th account, and "No Account" otherwise. There is one label per slot, so accounts beyond the last slot are not shown. |
| Strings.Lower | Assets/GPG214.2DanaTaha24T3/DanasSscripts/ProceduralTerrain/PrefabSpawnerBaseOnTextureReading.cs:154-157 | `ToLower` keeps the length and lower-cases each character on its own; `OrdinalIgnoreCase` equality (FirebaseAuthenticationNewUser.cs, lines 129-130) compares case-folded forms; on ASCII letters that is the same as comparing lower-cased forms. |
| Strings.Contains | Assets/GPG214.2DanaTaha24T3/DanasSscripts/ProceduralTerrain/PrefabSpawnerBaseOnTextureReading.cs:157 | Ordinal `Contains`: true exactly when the needle occurs at some position of the string. |
| Search.FirstWhere | Assets/GPG214.2DanaTaha24T3/DanasSscripts/ProceduralTerrain/PrefabSpawnerBaseOnTextureReading.cs:155-162 | The result is the first index that passes the test, with no earlier index passing. It is none only when no index passes. |
| Search.CollectInOrder | Assets/GPG214.2DanaTaha24T3/DanasSscripts/ProceduralTerrain/PrefabSpawnerBaseOnTextureReading.cs:47-71 | Starting from an empty list, the kept values follow name order and come from strictly increasing name positions. Every contributing name is kept. The count never exceeds the number of names, and it equals that number exactly when every name contributes. |
| BundlePrefabSpawner.FindAssetInBundle | Assets/GPG214.2DanaTaha24T3/DanasSscripts/ProceduralTerrain/PrefabSpawnerBaseOnTextureReading.cs:152-163 | The result is the first name, in array order, whose lower-cased form contains the lower-cased desired name. It is returned as stored, not lower-cased. The result is null exactly when no name matches. |
| BundlePrefabSpawner.LoadPrefabsFromAssetBundle | Assets/GPG214.2DanaTaha24T3/DanasSscripts/ProceduralTerrain/PrefabSpawnerBaseOnTextureReading.cs:37-74 | The previous list is cleared. The new list follows desired-name order and skips names that are not found, have an empty path or fail to load. It never holds more prefabs than there are desired names. |
| BundlePrefabSpawner.LoadAndGenerate | Assets/GPG214.2DanaTaha24T3/DanasSscripts/ProceduralTerrain/PrefabSpawnerBaseOnTextureReading.cs:82-126 | When generation runs, the odd-positioned old children survive and are followed by the new spawns. Every pixel is visited in x-then-y order. The spawns are exactly the pixels that yield a prefab from the loaded list, each with its pixel's prefab, and each carries the prefab of some desired name. When the colours match the desired names in count, generation runs exactly when there is a texture, at least one colour, and every desired name loads. Then colour i is paired with desired name i's prefab. Otherwise the children are left untouched. |
| TextureSpawning.SpawnFromTexture | Assets/GPG214.2DanaTaha24T3/DanasSscripts/ProceduralTerrainAndCollectables/PrefabSpawnerBaseOnTextureReading.cs:43-65 | Every pixel is visited once in x-then-y order. The spawns are, in that order, exactly the pixels that yield a prefab, each with that pixel's prefab. |
| TextureSpawning.GeneratePrefabsFromTexture | Assets/GPG214.2DanaTaha24T3/DanasSscripts/ProceduralTerrainAndCollectables/PrefabSpawnerBaseOnTextureReading.cs:24-68 | A null texture, zero colours or a colour/prefab count mismatch means nothing is visited or destroyed. Otherwise the clearing loop leaves the old children at odd positions. They are followed by the spawns, which are exactly the pixels that yield a prefab, in x-then-y order. |
| TextureSpawning.GeneratePrefabsClearingFirst | Assets/GPG214.2DanaTaha24T3/DanasSscripts/ProceduralTerrainAndCollectables/PrefabSpawnerBaseOnTextureReading.cs:24-68 | With the intended clearing, the guards and the walk are unchanged and no old child survives. The children are exactly the spawns. |
| TextureSpawning.PixelSpawnIsFirstMatch | Assets/GPG214.2DanaTaha24T3/DanasSscripts/ProceduralTerrainAndCollectables/PrefabSpawnerBaseOnTextureReading.cs:49-63 | A pixel yields the prefab of its first matching colour only if the raycast hits. It yields nothing when no colour matches or the raycast misses. |
| TextureSpawning.DestroyWhileEnumeratingKeepsOdd | Assets/GPG214.2DanaTaha24T3/DanasSscripts/ProceduralTerrain/PrefabSpawnerBaseOnTextureReading.cs:94-97 | As written, the clearing loop destroys the children at even positions and keeps every odd-positioned one. |
| TextureSpawning.SecondChildSurvives | Assets/GPG214.2DanaTaha24T3/DanasSscripts/ProceduralTerrainAndCollectables/PrefabSpawnerBaseOnTextureReading.cs:36-39 | As written, with two existing children, the second one survives the clearing loop. |
| TextureSpawning.ClearChildren | Assets/GPG214.2DanaTaha24T3/DanasSscripts/ProceduralTerrainAndCollectables/PrefabSpawnerBaseOnTextureReading.cs:36-39 | The intended clearing destroys the first child until none is left, so no existing child survives. |
| MeleeUnlockable.TogglePickupScript | Assets/GPG214.2DanaTaha24T3/DanasSscripts/GeneralGame/MeleeUnlockable.cs:30-36 | The pickup's active flag becomes the argument. Without a pickup nothing changes, and nothing else changes either way. |
| MeleeUnlockable.Start | Assets/GPG214.2DanaTaha24T3/DanasSscripts/GeneralGame/MeleeUnlockable.cs:17-28 | The pickup is disabled first, unconditionally. Without a manager nothing more happens, and the pickup stays inactive. With a manager, it is asked to update and then to register, in that order. The pickup then holds the state these two manager calls leave it in. |
| MeleeUnlockable.OnTriggerEnter | Assets/GPG214.2DanaTaha24T3/DanasSscripts/GeneralGame/MeleeUnlockable.cs:38-51 | The weapon is granted only to a "Player" collider with a controller, while nothing has been granted yet and the pickup is active. A grant enables attack and sets the marker to 5. It records one unlock event only when a manager instance exists. Any other trigger changes nothing. |
| MeleeUnlockable.AtMostOneGrant | Assets/GPG214.2DanaTaha24T3/DanasSscripts/GeneralGame/MeleeUnlockable.cs:40-48 | Over any sequence of triggers and toggles, at most one unlock event is recorded. Once the marker is non-zero, none are recorded and the marker stays. |
| MeleeUnlockable.InactivePickupNeverGrants | Assets/GPG214.2DanaTaha24T3/DanasSscripts/GeneralGame/MeleeUnlockable.cs:30-48 | While the pickup is not active and nothing enables it, no trigger grants the weapon: the component, attack permission and call log included, stays exactly as it was. |
| MeleeUnlockable.StartedPickupNeedsEnabling | Assets/GPG214.2DanaTaha24T3/DanasSscripts/GeneralGame/MeleeUnlockable.cs:17-44 | After `Start`, unless the two start-up manager calls or a later toggle enable the pickup, no trigger grants the weapon and the component stays as `Start` left it. |
| MeleeUnlockable.SyncedPickupGrants | Assets/GPG214.2DanaTaha24T3/DanasSscripts/GeneralGame/MeleeUnlockable.cs:17-48 | When the two start-up manager calls enable the pickup, the player's first trigger grants the weapon and records exactly one unlock event. |

## Left out

- Firebase Auth and Database calls, their `ContinueWith` callbacks, threads and coroutines. A database task is represented only by how it ended. `AuthenticateUser`, `RegisterUser`, `CheckFirebaseForDuplicates` and account creation are not modelled. They are foreign asynchronous I/O, and `RegisterUser` re-invokes itself from its duplicate-check callback.
- JSON serialisation (`JsonUtility`) and file reads and writes. The slots hold records and account lists directly. This assumes that `ToJson` followed by `FromJson`, and `SetRawJsonValueAsync` followed by `GetRawJsonValue`, give back the same four integers and flag. PlayerDataManager.LocalSaveThenLoad, PlayerDataManager.SaveThenLoadSameBackend, PlayerDataManager.LocalFileIsShared and PlayerDataManager.StartUpIsStable rest on that assumption. Malformed JSON, where `FromJson` throws, is not modelled.
- Logging, the feedback timers (`ShowFeedback`/`Invoke`), `ClearInputFields`, `CreateFileIfNotExists`, `RefreshLoginSlots`'s UI effects and `SetupGameState`. These are UI and log output. `SetupGameState` only logs, and it is represented by the adopted record.
- PlayerDataManager.TryLoadPlayerData: the sword flag of the baseline is a parameter. `new PlayerData(1, 5, 0, 0)` passes four arguments to the five-argument constructor, so the code fixes no value for it.
- PlayerDataManager.SavePlayerData: a local write that throws (disk full, no permission) is not modelled. The local file is always replaced.
- MeleeUnlockable.Start: `UpdateWeaponPickupState` and `RegisterWeaponPickup` are not defined in `PlayerDataManager.cs`. Their combined effect on the pickup is the parameter `synced`. Any effect on other objects is not modelled. `RecordSwordUnlockEvent` is recorded only as a call.
- MeleeUnlockable.OnTriggerEnter: a null `staffPickup` and a player without a `PlayerController` both throw before any field is written. They are modelled as "no change". A missing manager instance throws after the grant's two fields are written, so the grant stands without an unlock event.
- UsersLogin.OnConfirmButtonPressed: a slot that has an account but no password field makes the array access throw. This is reported as `InputFieldMissing`, with no sign-in attempted.
- Strings.Lower: `ToLower` and `OrdinalIgnoreCase` fold only the ASCII letters. Culture-specific and non-ASCII case mappings are not modelled.
- NewUserSignUp.IsValidEmail: `EndsWith(".com")` is culture-sensitive in C#; it is modelled as an ordinal suffix test.
- TextureSpawning.GeneratePrefabsFromTexture: two exceptions are not modelled. A null entry in the inspector's prefab list makes `Instantiate` throw at the first pixel that selects it. A texture that is not read-enabled makes `GetPixel` throw at the first pixel. In both cases the clearing loop has already run, leaving the odd-positioned children (see Findings), when the walk stops, and the contract's "every pixel is visited" does not hold.
- Colour matching with the 0.3 tolerance, spacing, height offset, raycasts and `Instantiate`. These are floating point and engine geometry. Colour matching and raycast hits are uninterpreted parameters, and a spawn is represented by its prefab and pixel.
- Perlin terrain generation, `AssetBundleLoaderAndDownloader` (network and coroutines; its call order of load then generate is kept in `LoadAndGenerate`), editor tools, analytics, `MainMenuButtonsHandler`, `PlayerJumpTracker`, `CoinCollection` (it only logs and destroys itself), `PlayerAuthentication` and `UnlockableStatus` (plain flag holders).
- Int32 counters. `PlayerData`'s fields are limited to the 32-bit range. No arithmetic is done on them, so wrap-around never arises.

## Findings

| source | as written | input that shows it | evidently intended | confidence | as-written member | corrected member |
|---|---|---|---|---|---|---|
| Assets/GPG214.2DanaTaha24T3/DanasSscripts/ProceduralTerrainAndCollectables/PrefabSpawnerBaseOnTextureReading.cs:36-39 | `foreach (Transform child in transform) DestroyImmediate(...)`. The engine's transform enumerator advances by child index, while each immediate destroy shifts the later children down one place. So only the even-positioned children are destroyed. | two existing children `[a, b]`: `b` survives | every existing child is removed before spawning | not executed; medium (rests on the engine's enumerator, which is outside the source) | TextureSpawning.SecondChildSurvives | TextureSpawning.GeneratePrefabsClearingFirst |
| Assets/GPG214.2DanaTaha24T3/DanasSscripts/ProceduralTerrain/PrefabSpawnerBaseOnTextureReading.cs:94-97 | the same clearing loop: the children at odd positions survive | children `[c0, c1, c2, c3]`: `c1` and `c3` survive | every existing child is removed before spawning | not executed; medium (rests on the engine's enumerator, which is outside the source) | TextureSpawning.DestroyWhileEnumeratingKeepsOdd | TextureSpawning.GeneratePrefabsClearingFirst |

=== FILE: bundle_prefab_spawner.dfy ===
/**
 * The asset-bundle spawner (`PrefabSpawnerBasedOnTextureRead`): finding each
 * desired prefab in the bundle by case-insensitive substring, building the
 * prefab list in desired-name order, and generating from it. The bundle's
 * `LoadAsset` is a parameter: it may or may not produce a prefab for a path.
 */
module BundlePrefabSpawner {
  import opened Wrappers
  import opened Strings
  import opened Search
  import opened TextureSpawning

  /** An asset name answers a desired name when its lower-cased form contains the lower-cased desired name. */
  predicate NameMatches(assetName: string, desiredName: string) {
    Contains(Lower(assetName), Lower(desiredName))
  }

  /**
   * `FindAssetInBundle`: the first asset name, in bundle order, that answers
   * the desired name, returned as it is in the bundle (not lower-cased); `None`
   * (null) when no name does.
   */
  function FindAssetInBundle(assetNames: seq<string>, desiredName: string): (r: Option<string>)
    ensures r.None? <==> forall i :: 0 <= i < |assetNames| ==> !NameMatches(assetNames[i], desiredName)
    ensures r.Some? ==>
              exists i :: && 0 <= i < |assetNames| && assetNames[i] == r.value && NameMatches(assetNames[i], desiredName)
                          && forall j :: 0 <= j < i ==> !NameMatches(assetNames[j], desiredName)
  {
    match FirstWhere(assetNames, (a: string) => NameMatches(a, desiredName), 0)
    case None => None
    case Some(i) => Some(assetNames[i])
  }

  /** What one desired name contributes: a prefab when it is found under a non-empty path and that path loads. */
  function PrefabFor<P>(assetNames: seq<string>, desiredName: string, loadAsset: string -> Option<P>): Option<P> {
    match FindAssetInBundle(assetNames, desiredName)
    case None => None
    case Some(path) => if path == [] then None else loadAsset(path)
  }

  /**
   * `LoadPrefabsFromAssetBundle`: the list starts empty (any earlier list is
   * cleared) and receives, in desired-name order, the prefab of every desired
   * name that is found and loads; the others are skipped. `sources` says which
   * desired name each prefab came from.
   */
  method LoadPrefabsFromAssetBundle<P>(assetNames: seq<string>, desiredNames: seq<string>, loadAsset: string -> Option<P>)
    returns (prefabs: seq<P>, ghost sources: seq<nat>)
    ensures |prefabs| == |sources| <= |desiredNames|
    ensures forall k :: 0 <= k < |sources| ==>
              sources[k] < |desiredNames| && PrefabFor(assetNames, desiredNames[sources[k]], loadAsset) == Some(prefabs[k])
    ensures forall k, l :: 0 <= k < l < |sources| ==> sources[k] < sources[l]
    ensures forall j :: 0 <= j < |desiredNames| && PrefabFor(assetNames, desiredNames[j], loadAsset).Some? ==> j in sources
    ensures |prefabs| == |desiredNames| <==>
              forall j :: 0 <= j < |desiredNames| ==> PrefabFor(assetNames, desiredNames[j], loadAsset).Some?
  {
    prefabs, sources := CollectInOrder(desiredNames, (name: string) => PrefabFor(assetNames, name, loadAsset));
  }

  /**
   * The bundle download's sequence: load the prefabs, then generate. When
   * generation runs, the clearing loop's survivors are followed by the new
   * spawns: every pixel is visited, the spawns are exactly the pixels that
   * yield a prefab, and every new spawn carries the prefab of some desired
   * name. With the colour list sized for the desired names, colour `i` is
   * paired with the prefab of desired name `i`. When
   * the colour list was sized for the desired names, generation runs exactly
   * when there is a texture, some colour, and every desired name is found and
   * loads; otherwise the existing children stay as they were.
   */
  method LoadAndGenerate<C, P>(assetNames: seq<string>, desiredNames: seq<string>, loadAsset: string -> Option<P>,
                               texture: Option<Texture<C>>, colours: seq<C>, children: seq<Spawn<P>>,
                               matches: (C, C) -> bool, hits: (nat, nat) -> bool)
    returns (result: seq<Spawn<P>>, spawns: seq<Spawn<P>>, prefabs: seq<P>, visits: seq<Pos>, generated: bool)
    ensures !generated ==> result == children && spawns == []
    ensures generated ==> texture.Some? && |colours| != 0 && result == OddPositions(children) + spawns
    ensures generated ==>
              && |colours| == |prefabs|
              && WalksEveryPixel(texture.value, visits)
              && SpawnsExactly(texture.value, colours, prefabs, matches, hits, spawns)
    ensures generated && |colours| == |desiredNames| ==>
              forall i :: 0 <= i < |desiredNames| ==> PrefabFor(assetNames, desiredNames[i], loadAsset) == Some(prefabs[i])
    ensures forall k :: 0 <= k < |spawns| ==>
              exists j :: 0 <= j < |desiredNames| && PrefabFor(assetNames, desiredNames[j], loadAsset) == Some(spawns[k].prefab)
    ensures |colours| == |desiredNames| ==>
              (generated <==>
                 && texture.Some? && |colours| != 0
                 && forall j :: 0 <= j < |desiredNames| ==> PrefabFor(assetNames, desiredNames[j], loadAsset).Some?)
  {
    ghost var sources;
    prefabs, sources := LoadPrefabsFromAssetBundle(assetNames, desiredNames, loadAsset);
    result, spawns, visits := GeneratePrefabsFromTexture(texture, colours, prefabs, children, matches, hits);
    generated := CanGenerate(texture, colours, prefabs);
    if generated && |colours| == |desiredNames| {
      IncreasingFillsRange(sources);
    }
    if generated {
      forall k | 0 <= k < |spawns|
        ensures exists j :: 0 <= j < |desiredNames| && PrefabFor(assetNames, desiredNames[j], loadAsset) == Some(spawns[k].prefab)
      {
        var t := texture.value;
        var firstMatch := FirstMatchingColour(t.pixel(spawns[k].x, spawns[k].y), colours, matches);
        assert PixelSpawn(t, colours, prefabs, matches, hits, spawns[k].x, spawns[k].y) == Some(spawns[k].prefab);
        assert firstMatch.Some? && prefabs[firstMatch.value] == spawns[k].prefab;
        var j := sources[firstMatch.value];
        assert PrefabFor(assetNames, desiredNames[j], loadAsset) == Some(spawns[k].prefab);
      }
      assert forall k :: 0 <= k < |spawns| ==>
        exists j :: 0 <= j < |desiredNames| && PrefabFor(assetNames, desiredNames[j], loadAsset) == Some(spawns[k].prefab);
    } else {
      assert spawns == [];
    }
  }
}

=== FILE: melee_unlockable.dfy ===
/**
 * The staff pickup (`MeleeUnlockable`): start-up disables the pickup, and the
 * first trigger by the player while the pickup is active grants the weapon
 * and latches, so the weapon is granted at most once per object. The
 * player-data manager is external: the model records which of its operations
 * are called, not what they do.
 */
module MeleeUnlockable {
  import opened Wrappers

  /** The `staffPickup` reference: unassigned (null), or an object with its active flag. */
  datatype Pickup = Unassigned | Pickup(active: bool)

  /** Operations of the player-data manager this component calls; their implementations are not part of this model. */
  datatype ManagerCall = UpdateWeaponPickupState | RegisterWeaponPickup | RecordSwordUnlockEvent

  /** The collider entering the trigger: its tag and whether it carries a `PlayerController`. */
  datatype Collider = Collider(tag: string, hasPlayerController: bool)

  /** The component's state, the player's attack permission, and the manager calls made so far. */
  datatype Melee = Melee(staffPickup: Pickup, interactedWithWeapon: int, canAttack: bool, calls: seq<ManagerCall>)

  const PlayerTag: string := "Player"

  /** The value `interactedWithWeapon` takes once the weapon has been granted. */
  const GrantedMarker: int := 5

  /** `TogglePickupScript`: the pickup's active flag becomes `isEnabled`; without a pickup nothing changes. */
  function TogglePickupScript(m: Melee, isEnabled: bool): (r: Melee)
    ensures m.staffPickup.Unassigned? ==> r == m
    ensures m.staffPickup.Pickup? ==> r.staffPickup == Pickup(isEnabled)
    ensures r.interactedWithWeapon == m.interactedWithWeapon && r.canAttack == m.canAttack && r.calls == m.calls
  {
    match m.staffPickup
    case Unassigned => m
    case Pickup(_) => m.(staffPickup := Pickup(isEnabled))
  }

  /**
   * `Start`: the pickup is disabled first, whatever else happens; without a
   * manager instance nothing more is done, otherwise the manager is asked to
   * update the pickup state and then to register this pickup. The effect of
   * these two manager calls on the pickup is the parameter `synced`: `None`
   * leaves it as the disable left it, `Some(b)` sets its active flag to `b`.
   */
  function Start(m: Melee, managerPresent: bool, synced: Option<bool>): (r: Melee)
    ensures r.staffPickup.Unassigned? <==> m.staffPickup.Unassigned?
    ensures (!managerPresent || synced.None?) ==> (r.staffPickup.Pickup? ==> !r.staffPickup.active)
    ensures managerPresent && synced.Some? && m.staffPickup.Pickup? ==> r.staffPickup == Pickup(synced.value)
    ensures r.interactedWithWeapon == m.interactedWithWeapon && r.canAttack == m.canAttack
    ensures !managerPresent ==> r.calls == m.calls
    ensures managerPresent ==> r.calls == m.calls + [UpdateWeaponPickupState, RegisterWeaponPickup]
  {
    var disabled := TogglePickupScript(m, false);
    if !managerPresent then disabled
    else
      var updated := match synced
        case None => disabled
        case Some(isEnabled) => TogglePickupScript(disabled, isEnabled);
      updated.(calls := updated.calls + [UpdateWeaponPickupState, RegisterWeaponPickup])
  }

  /** The trigger grants the weapon: the player enters, nothing was granted yet, the pickup is active, and the player has a controller. */
  predicate Grants(m: Melee, c: Collider) {
    c.tag == PlayerTag && m.interactedWithWeapon == 0 && m.staffPickup == Pickup(true) && c.hasPlayerController
  }

  /**
   * `OnTriggerEnter`. A grant lets the player attack and latches
   * `interactedWithWeapon` at 5; the unlock event is recorded only when a
   * manager instance exists, since without one the call throws after both
   * fields are written. Anything else changes nothing: a non-player collider,
   * a latched component, an inactive pickup, and also the two null
   * dereferences the code does not guard (no pickup assigned, no
   * `PlayerController` on the player), which throw before any field is written.
   */
  function OnTriggerEnter(m: Melee, c: Collider, managerPresent: bool): (r: Melee)
    ensures Grants(m, c) ==>
              && r.canAttack && r.interactedWithWeapon == GrantedMarker && r.staffPickup == m.staffPickup
              && r.calls == m.calls + (if managerPresent then [RecordSwordUnlockEvent] else [])
    ensures !Grants(m, c) ==> r == m
  {
    if c.tag == PlayerTag && m.interactedWithWeapon == 0 then
      match m.staffPickup
      case Unassigned => m
      case Pickup(active) =>
        if active then
          if !c.hasPlayerController then m
          else
            var granted := m.(canAttack := true, interactedWithWeapon := GrantedMarker);
            if managerPresent then granted.(calls := m.calls + [RecordSwordUnlockEvent]) else granted
        else m
    else m
  }

  /**
   * What can happen to the component after start-up: a trigger (with whether
   * a manager instance exists at that moment), or the manager toggling the pickup.
   */
  datatype Event = Trigger(collider: Collider, managerPresent: bool) | Toggle(isEnabled: bool)

  function Step(m: Melee, e: Event): Melee {
    match e
    case Trigger(c, managerPresent) => OnTriggerEnter(m, c, managerPresent)
    case Toggle(b) => TogglePickupScript(m, b)
  }

  function Run(m: Melee, events: seq<Event>): Melee
    decreases |events|
  {
    if events == [] then m else Run(Step(m, events[0]), events[1..])
  }

  /** How many unlock events a call log holds. */
  function UnlockEvents(calls: seq<ManagerCall>): nat
    decreases |calls|
  {
    if calls == [] then 0
    else UnlockEvents(calls[..|calls| - 1]) + (if calls[|calls| - 1] == RecordSwordUnlockEvent then 1 else 0)
  }

  /**
   * The one-shot latch: whatever triggers and toggles follow, the weapon is
   * granted at most once, and never again once `interactedWithWeapon` is
   * non-zero.
   */
  lemma {:induction false} AtMostOneGrant(m: Melee, events: seq<Event>)
    ensures UnlockEvents(Run(m, events).calls) <= UnlockEvents(m.calls) + 1
    ensures m.interactedWithWeapon != 0 ==> UnlockEvents(Run(m, events).calls) == UnlockEvents(m.calls)
    ensures m.interactedWithWeapon != 0 ==> Run(m, events).interactedWithWeapon == m.interactedWithWeapon
    decreases |events|
  {
    if events != [] {
      var next := Step(m, events[0]);
      AtMostOneGrant(next, events[1..]);
    }
  }

  /**
   * After `Start` the pickup is inactive unless the two manager calls enabled
   * it. Unless those calls or a later toggle enable it, no trigger grants the
   * weapon: attack stays as it was, the marker stays, no event is recorded,
   * and the component ends exactly as `Start` left it.
   */
  lemma {:induction false} StartedPickupNeedsEnabling(m: Melee, managerPresent: bool, synced: Option<bool>,
                                                      events: seq<Event>)
    requires forall k :: 0 <= k < |events| ==> events[k] != Toggle(true)
    ensures var started := Start(m, managerPresent, synced);
            (!managerPresent || synced != Some(true)) ==> Run(started, events) == started
  {
    if !managerPresent || synced != Some(true) {
      InactivePickupNeverGrants(Start(m, managerPresent, synced), events);
    }
  }

  /**
   * Manager calls that enable the pickup are enough: the player's first trigger
   * then grants the weapon and, with a manager present, records one unlock event.
   */
  lemma SyncedPickupGrants(m: Melee, c: Collider)
    requires m.staffPickup.Pickup? && m.interactedWithWeapon == 0
    requires c.tag == PlayerTag && c.hasPlayerController
    ensures var started := Start(m, true, Some(true));
            var after := Run(started, [Trigger(c, true)]);
            && after.canAttack && after.interactedWithWeapon == GrantedMarker
            && UnlockEvents(after.calls) == UnlockEvents(started.calls) + 1
  {
  }

  /**
   * While the pickup is not active and nothing enables it, no trigger or
   * toggle changes the component at all.
   */
  lemma {:induction false} InactivePickupNeverGrants(m: Melee, events: seq<Event>)
    requires m.staffPickup != Pickup(true)
    requires forall k :: 0 <= k < |events| ==> events[k] != Toggle(true)
    ensures Run(m, events) == m
    decreases |events|
  {
    if events != [] {
      assert events[0] != Toggle(true);
      assert forall k :: 0 <= k < |events[1..]| ==> events[1..][k] == events[k + 1];
      InactivePickupNeverGrants(Step(m, events[0]), events[1..]);
    }
  }
}

=== FILE: player_data.dfy ===
/** The serialisable progression record (`PlayerData` struct). */
module PlayerRecord {

  /** C#'s `int`: every counter of the record is a 32-bit signed integer. */
  type Int32 = x: int | -0x8000_0000 <= x < 0x8000_0000

  /** The record. No field is validated: negative hit points or coins are representable. */
  datatype PlayerData = PlayerData(
    checkpoint: Int32,
    hp: Int32,
    enemiesKilled: Int32,
    coinsCollected: Int32,
    isSwordUnlocked: bool)

  /** `default(PlayerData)`: the value of the struct before any constructor runs. */
  const Unconstructed: PlayerData := PlayerData(0, 0, 0, 0, false)

  /** The five-argument constructor: every field is stored as passed. */
  function NewPlayerData(checkpoint: Int32, hp: Int32, enemiesKilled: Int32, coinsCollected: Int32,
                         isSwordUnlocked: bool): (d: PlayerData)
    ensures d.checkpoint == checkpoint && d.hp == hp
    ensures d.enemiesKilled == enemiesKilled && d.coinsCollected == coinsCollected
    ensures d.isSwordUnlocked == isSwordUnlocked
  {
    PlayerData(checkpoint, hp, enemiesKilled, coinsCollected, isSwordUnlocked)
  }

  /** The constructor rejects nothing: every record, whatever its values, is what some call builds. */
  lemma EveryRecordIsConstructible(d: PlayerData)
    ensures NewPlayerData(d.checkpoint, d.hp, d.enemiesKilled, d.coinsCollected, d.isSwordUnlocked) == d
  {
  }

  /** The unconstructed value holds zero in every counter and a locked sword. */
  lemma UnconstructedIsZero(d: PlayerData)
    requires d == Unconstructed
    ensures d.checkpoint == 0 && d.hp == 0 && d.enemiesKilled == 0 && d.coinsCollected == 0
    ensures !d.isSwordUnlocked
  {
  }
}

=== FILE: player_data_manager.dfy ===
/**
 * The persistence policy of `PlayerDataManager`: which backend a save goes to,
 * which backend a load reads, the default-record test and first-run
 * initialisation. The remote database and the local file are slots; the
 * asynchronous database tasks are represented by how they end.
 */
module PlayerDataManager {
  import opened Wrappers
  import opened PlayerRecord

  /** A Firebase user id. */
  type UserId = string

  const RemotePrefix: string := "users/"
  const RemoteSuffix: string := "/playerData"

  /** Database path of a user's record, `users/{userId}/playerData`. The user id can be read back from it. */
  function RemoteKey(userId: UserId): (key: string)
    ensures |key| == |RemotePrefix| + |userId| + |RemoteSuffix|
    ensures key[..|RemotePrefix|] == RemotePrefix
    ensures key[|key| - |RemoteSuffix|..] == RemoteSuffix
    ensures key[|RemotePrefix|..|key| - |RemoteSuffix|] == userId
  {
    var key := RemotePrefix + userId + RemoteSuffix;
    assert key[|RemotePrefix|..|key| - |RemoteSuffix|] == userId;
    key
  }

  /** Different users never share a database path. */
  lemma RemoteKeyInjective(a: UserId, b: UserId)
    ensures RemoteKey(a) == RemoteKey(b) <==> a == b
  {
  }

  /** The two backends: database paths to records, and the single local file (absent or holding a record). */
  datatype Stores = Stores(remote: map<string, PlayerData>, local: Option<PlayerData>)

  /** How an asynchronous database task ended. */
  datatype TaskStatus = RanToCompletion | Faulted | Canceled

  /** What a load hands to its callback; `NoCallback` when the callback is never invoked. */
  datatype Delivery = Delivered(data: PlayerData) | NoCallback

  /**
   * `SavePlayerData`: signed in, the record goes to the user's database path
   * (if the write task completes) and to the local file; signed out, to the
   * local file only. Nothing else changes.
   */
  function SavePlayerData(auth: Option<UserId>, stores: Stores, data: PlayerData, writeTask: TaskStatus): (s: Stores)
    ensures s.local == Some(data)
    ensures auth.Some? && writeTask == RanToCompletion ==>
              RemoteKey(auth.value) in s.remote && s.remote[RemoteKey(auth.value)] == data
    ensures auth.None? || writeTask != RanToCompletion ==> s.remote == stores.remote
    ensures forall key :: key in stores.remote && (auth.None? || key != RemoteKey(auth.value)) ==>
              key in s.remote && s.remote[key] == stores.remote[key]
    ensures forall key :: key in s.remote && (auth.None? || key != RemoteKey(auth.value)) ==> key in stores.remote
  {
    match auth
    case Some(userId) =>
      Stores(SaveDataToFirebase(stores.remote, userId, data, writeTask), SaveDataLocally(data))
    case None =>
      Stores(stores.remote, SaveDataLocally(data))
  }

  /** The database after a write of `data` to the user's path; a faulted or canceled write changes nothing. */
  function SaveDataToFirebase(remote: map<string, PlayerData>, userId: UserId, data: PlayerData,
                              writeTask: TaskStatus): (r: map<string, PlayerData>)
    ensures writeTask == RanToCompletion ==> RemoteKey(userId) in r && r[RemoteKey(userId)] == data
    ensures writeTask != RanToCompletion ==> r == remote
    ensures forall key :: key != RemoteKey(userId) ==> (key in r <==> key in remote)
    ensures forall key :: key in r && key != RemoteKey(userId) ==> key in remote && r[key] == remote[key]
  {
    if writeTask == RanToCompletion then remote[RemoteKey(userId) := data] else remote
  }

  /** The local file after `File.WriteAllText`: it holds the record, replacing whatever it held. */
  function SaveDataLocally(data: PlayerData): (local: Option<PlayerData>) {
    Some(data)
  }

  /** A local load after a local save delivers the saved record, whatever the file held before. */
  lemma LocalSaveThenLoad(data: PlayerData)
    ensures LoadDataLocally(SaveDataLocally(data)) == Delivered(data)
  {
  }

  /**
   * `LoadDataFromFirebase`: a faulted read only logs, and a canceled read throws
   * inside the continuation, so neither calls back; a completed read delivers
   * the stored record, or the zero-valued record when the snapshot is missing.
   */
  function LoadDataFromFirebase(remote: map<string, PlayerData>, userId: UserId, readTask: TaskStatus): (o: Delivery)
    ensures o == NoCallback <==> readTask != RanToCompletion
    ensures readTask == RanToCompletion && RemoteKey(userId) in remote ==> o == Delivered(remote[RemoteKey(userId)])
    ensures readTask == RanToCompletion && RemoteKey(userId) !in remote ==> o == Delivered(Unconstructed)
  {
    match readTask
    case Faulted => NoCallback
    case Canceled => NoCallback
    case RanToCompletion =>
      var key := RemoteKey(userId);
      if key in remote then Delivered(remote[key]) else Delivered(Unconstructed)
  }

  /** `LoadDataLocally`: always calls back, with the file's record or, without a file, the zero-valued record. */
  function LoadDataLocally(local: Option<PlayerData>): (o: Delivery)
    ensures o.Delivered?
    ensures local.Some? ==> o.data == local.value
    ensures local.None? ==> o.data == Unconstructed
  {
    match local
    case Some(data) => Delivered(data)
    case None => Delivered(Unconstructed)
  }

  /** `LoadPlayerData`: signed in, only the database is read; signed out, only the local file. */
  function LoadPlayerData(auth: Option<UserId>, stores: Stores, readTask: TaskStatus): (o: Delivery)
    ensures auth.Some? ==> o == LoadDataFromFirebase(stores.remote, auth.value, readTask)
    ensures auth.None? ==> o == LoadDataLocally(stores.local)
  {
    match auth
    case Some(userId) => LoadDataFromFirebase(stores.remote, userId, readTask)
    case None => LoadDataLocally(stores.local)
  }

  /** There is no fallback: a signed-in load does not depend on the local file, a signed-out one not on the database. */
  lemma LoadReadsOneBackend(auth: Option<UserId>, s1: Stores, s2: Stores, readTask: TaskStatus)
    requires auth.Some? ==> s1.remote == s2.remote
    requires auth.None? ==> s1.local == s2.local
    ensures LoadPlayerData(auth, s1, readTask) == LoadPlayerData(auth, s2, readTask)
  {
  }

  /** A save and a later load under the same sign-in state go to the same backend. */
  lemma SaveThenLoadSameBackend(auth: Option<UserId>, stores: Stores, data: PlayerData)
    ensures LoadPlayerData(auth, SavePlayerData(auth, stores, data, RanToCompletion), RanToCompletion) == Delivered(data)
  {
  }

  /** The local file is shared: a signed-out load sees whatever the last signed-in save wrote locally. */
  lemma LocalFileIsShared(userId: UserId, stores: Stores, data: PlayerData, writeTask: TaskStatus, readTask: TaskStatus)
    ensures LoadPlayerData(None, SavePlayerData(Some(userId), stores, data, writeTask), readTask) == Delivered(data)
  {
  }

  /** A signed-in save touches no other user's database record. */
  lemma SaveLeavesOtherUsers(userId: UserId, other: UserId, stores: Stores, data: PlayerData, writeTask: TaskStatus,
                             readTask: TaskStatus)
    requires other != userId
    ensures LoadPlayerData(Some(other), SavePlayerData(Some(userId), stores, data, writeTask), readTask)
         == LoadPlayerData(Some(other), stores, readTask)
  {
  }

  /** `IsDefaultPlayerData`: all four counters are zero; the sword flag plays no part. */
  predicate IsDefaultPlayerData(data: PlayerData) {
    data.checkpoint == 0 && data.hp == 0 && data.enemiesKilled == 0 && data.coinsCollected == 0
  }

  /** A record is default exactly when it is the unconstructed value up to its sword flag. */
  lemma DefaultMeansUnconstructed(data: PlayerData)
    ensures IsDefaultPlayerData(data) <==> data == Unconstructed.(isSwordUnlocked := data.isSwordUnlocked)
  {
  }

  /** The baseline a first run saves: checkpoint 1, 5 hp, no kills, no coins. */
  function FirstRunBaseline(isSwordUnlocked: bool): (d: PlayerData)
    ensures !IsDefaultPlayerData(d)
    ensures d.checkpoint == 1 && d.hp == 5 && d.enemiesKilled == 0 && d.coinsCollected == 0
  {
    PlayerData(1, 5, 0, 0, isSwordUnlocked)
  }

  /** The manager's state after `TryLoadPlayerData`: the record handed to game setup (if any) and the stores. */
  datatype Session = Session(adopted: Option<PlayerData>, stores: Stores)

  /**
   * `TryLoadPlayerData`: load; a non-default record is adopted as is and not
   * re-saved; a default (or missing) one is replaced by the baseline, which
   * is saved and then adopted. Without a callback nothing happens at all.
   */
  function TryLoadPlayerData(auth: Option<UserId>, stores: Stores, readTask: TaskStatus, writeTask: TaskStatus,
                             baselineSword: bool): (s: Session)
    ensures s.adopted.None? <==> LoadPlayerData(auth, stores, readTask) == NoCallback
    ensures s.adopted.None? ==> s.stores == stores
    ensures s.adopted.Some? ==> !IsDefaultPlayerData(s.adopted.value)
    ensures var o := LoadPlayerData(auth, stores, readTask);
            o.Delivered? && !IsDefaultPlayerData(o.data) ==> s == Session(Some(o.data), stores)
    ensures var o := LoadPlayerData(auth, stores, readTask);
            o.Delivered? && IsDefaultPlayerData(o.data) ==>
              && s.adopted == Some(FirstRunBaseline(baselineSword))
              && s.stores == SavePlayerData(auth, stores, FirstRunBaseline(baselineSword), writeTask)
  {
    match LoadPlayerData(auth, stores, readTask)
    case NoCallback => Session(None, stores)
    case Delivered(data) =>
      if !IsDefaultPlayerData(data) then
        Session(Some(data), stores)
      else
        var baseline := FirstRunBaseline(baselineSword);
        Session(Some(baseline), SavePlayerData(auth, stores, baseline, writeTask))
  }

  /** A faulted or canceled database read sets nothing up and saves nothing. */
  lemma FailedRemoteReadDoesNothing(userId: UserId, stores: Stores, readTask: TaskStatus, writeTask: TaskStatus, sword: bool)
    requires readTask != RanToCompletion
    ensures TryLoadPlayerData(Some(userId), stores, readTask, writeTask, sword) == Session(None, stores)
  {
  }

  /** Signed out, start-up adopts the local file's record when it is non-default, and the baseline otherwise. */
  lemma SignedOutStartAdopts(stores: Stores, readTask: TaskStatus, writeTask: TaskStatus, sword: bool)
    ensures TryLoadPlayerData(None, stores, readTask, writeTask, sword).adopted
         == Some(if stores.local.Some? && !IsDefaultPlayerData(stores.local.value) then stores.local.value
                 else FirstRunBaseline(sword))
    ensures TryLoadPlayerData(None, stores, readTask, writeTask, sword).stores.remote == stores.remote
  {
  }

  /**
   * First-run initialisation happens once: once a start-up has adopted a
   * record with both tasks completing, the next start-up adopts the same
   * record and writes nothing.
   */
  lemma StartUpIsStable(auth: Option<UserId>, stores: Stores, sword: bool, nextWrite: TaskStatus, nextSword: bool)
    ensures var first := TryLoadPlayerData(auth, stores, RanToCompletion, RanToCompletion, sword);
            TryLoadPlayerData(auth, first.stores, RanToCompletion, nextWrite, nextSword) == first
  {
  }
}

=== FILE: search.dfy ===
/** Linear search for the first element satisfying a test, as the scripts' `for`/`foreach` loops with early exit do. */
module Search {
  import opened Wrappers

  /** The index of the first element, from `from` on, that satisfies `test`. */
  function FirstWhere<T>(s: seq<T>, test: T -> bool, from: nat): (r: Option<nat>)
    requires from <= |s|
    ensures r.Some? ==> from <= r.value < |s| && test(s[r.value])
    ensures r.Some? ==> forall j :: from <= j < r.value ==> !test(s[j])
    ensures r.None? ==> forall j :: from <= j < |s| ==> !test(s[j])
    decreases |s| - from
  {
    if from == |s| then None
    else if test(s[from]) then Some(from)
    else FirstWhere(s, test, from + 1)
  }

  /**
   * A walk over `names` that keeps, in order, what each name contributes and
   * skips names contributing nothing; `sources` records which name each kept
   * value came from.
   */
  method CollectInOrder<T>(names: seq<string>, contribute: string -> Option<T>)
    returns (kept: seq<T>, ghost sources: seq<nat>)
    ensures |kept| == |sources| <= |names|
    ensures forall k :: 0 <= k < |sources| ==> sources[k] < |names| && contribute(names[sources[k]]) == Some(kept[k])
    ensures forall k, l :: 0 <= k < l < |sources| ==> sources[k] < sources[l]
    ensures forall j :: 0 <= j < |names| && contribute(names[j]).Some? ==> j in sources
    ensures |kept| == |names| <==> forall j :: 0 <= j < |names| ==> contribute(names[j]).Some?
  {
    kept := [];
    sources := [];
    var i := 0;
    while i < |names|
      invariant 0 <= i <= |names|
      invariant |kept| == |sources| <= i
      invariant forall k :: 0 <= k < |sources| ==> sources[k] < i && contribute(names[sources[k]]) == Some(kept[k])
      invariant forall k, l :: 0 <= k < l < |sources| ==> sources[k] < sources[l]
      invariant forall j :: 0 <= j < i && contribute(names[j]).Some? ==> j in sources
      invariant |kept| == i <==> forall j :: 0 <= j < i ==> contribute(names[j]).Some?
    {
      var value := contribute(names[i]);
      if value.Some? {
        kept := kept + [value.value];
        sources := sources + [i];
      }
      i := i + 1;
    }
  }

  /** In a strictly increasing sequence of naturals, each element is at least its position. */
  lemma {:induction false} IncreasingAtLeastPosition(sources: seq<nat>, k: nat)
    requires forall i, j :: 0 <= i < j < |sources| ==> sources[i] < sources[j]
    requires k < |sources|
    ensures sources[k] >= k
    decreases k
  {
    if k > 0 {
      IncreasingAtLeastPosition(sources, k - 1);
    }
  }

  /** In a strictly increasing sequence of naturals below its length, each element is at most its position. */
  lemma {:induction false} IncreasingAtMostPosition(sources: seq<nat>, k: nat)
    requires forall i, j :: 0 <= i < j < |sources| ==> sources[i] < sources[j]
    requires forall i :: 0 <= i < |sources| ==> sources[i] < |sources|
    requires k < |sources|
    ensures sources[k] <= k
    decreases |sources| - k
  {
    if k + 1 < |sources| {
      IncreasingAtMostPosition(sources, k + 1);
    }
  }

  /**
   * When every name contributed, the walk's sources are exactly the positions
   * `0, 1, ..., n - 1`: a strictly increasing sequence of `n` naturals below
   * `n` holds each position at its own index.
   */
  lemma IncreasingFillsRange(sources: seq<nat>)
    requires forall i, j :: 0 <= i < j < |sources| ==> sources[i] < sources[j]
    requires forall i :: 0 <= i < |sources| ==> sources[i] < |sources|
    ensures forall k :: 0 <= k < |sources| ==> sources[k] == k
  {
    forall k | 0 <= k < |sources| ensures sources[k] == k {
      IncreasingAtLeastPosition(sources, k);
      IncreasingAtMostPosition(sources, k);
    }
  }
}

=== FILE: sign_up.dfy ===
/**
 * Sign-up (`FirebaseAuthenticationNewUser`): the ordered validation of the
 * form, the e-mail shape rule, the case-insensitive duplicate check and the
 * append-on-save of the local account file.
 */
module NewUserSignUp {
  import opened Strings
  import opened UserAccounts

  /** The shortest password the form accepts. */
  const MinPasswordLength: nat := 6

  /** The verdict of the sign-up form; each rejection names the first check that failed. */
  datatype SignUpVerdict = EmptyField | InvalidEmail | PasswordTooShort | PasswordMismatch | Accepted

  /** The feedback text and how many seconds it stays on screen. */
  function Feedback(v: SignUpVerdict): (string, nat) {
    match v
    case EmptyField => ("Do not leave any of the fields empty.", 3)
    case InvalidEmail => ("Email invalid.", 1)
    case PasswordTooShort => ("Password must be at least 6 characters long.", 2)
    case PasswordMismatch => ("The passwords do not match.", 2)
    case Accepted => ("Account successfully created. Log-in to start the game.", 3)
  }

  /** `IsValidEmail`: the address contains an `@` somewhere and ends in `.com`. */
  function IsValidEmail(email: string): (ok: bool)
    ensures ok <==> (exists i :: 0 <= i < |email| && email[i] == '@') && 4 <= |email| && email[|email| - 4..] == ".com"
  {
    assert forall i :: OccursAt(email, "@", i) <==> 0 <= i < |email| && email[i] == '@' by {
      forall i ensures OccursAt(email, "@", i) <==> 0 <= i < |email| && email[i] == '@' {
        if 0 <= i < |email| {
          assert email[i..i + 1] == [email[i]];
        }
      }
    }
    Contains(email, "@") && EndsWith(email, ".com")
  }

  /** Every field of the form is filled in. */
  predicate FieldsFilled(username: string, email: string, password: string) {
    username != [] && email != [] && password != []
  }

  /**
   * `OnSignUpButton`: empty fields, then the e-mail shape, then the password
   * length, then the confirmation; the first failing check decides, and only
   * a form passing all four reaches registration.
   */
  function OnSignUpButton(username: string, email: string, password: string, confirmPassword: string): (v: SignUpVerdict)
    ensures v == EmptyField <==> !FieldsFilled(username, email, password)
    ensures v == InvalidEmail <==> FieldsFilled(username, email, password) && !IsValidEmail(email)
    ensures v == PasswordTooShort <==>
              FieldsFilled(username, email, password) && IsValidEmail(email) && Utf16Length(password) < MinPasswordLength
    ensures v == PasswordMismatch <==>
              && FieldsFilled(username, email, password) && IsValidEmail(email) && Utf16Length(password) >= MinPasswordLength
              && password != confirmPassword
    ensures v == Accepted <==>
              && FieldsFilled(username, email, password) && IsValidEmail(email) && Utf16Length(password) >= MinPasswordLength
              && password == confirmPassword
  {
    if username == [] || email == [] || password == [] then EmptyField
    else if !IsValidEmail(email) then InvalidEmail
    else if Utf16Length(password) < MinPasswordLength then PasswordTooShort
    else if password != confirmPassword then PasswordMismatch
    else Accepted
  }

  /**
   * The length check counts UTF-16 code units, not characters: three emoji,
   * each outside the Basic Multilingual Plane, make a password of length 6.
   */
  lemma AstralPasswordCountsTwice()
    ensures Utf16Length("\U{1F600}\U{1F600}\U{1F600}") == MinPasswordLength
    ensures OnSignUpButton("u", "a@b.com", "\U{1F600}\U{1F600}\U{1F600}", "\U{1F600}\U{1F600}\U{1F600}") == Accepted
  {
  }

  /**
   * The success message is shown exactly when the form is accepted; every
   * rejection shows its own message.
   */
  lemma FeedbackIdentifiesVerdict(username: string, email: string, password: string, confirmPassword: string)
    ensures var v := OnSignUpButton(username, email, password, confirmPassword);
            Feedback(v).0 == Feedback(Accepted).0 <==>
              && FieldsFilled(username, email, password) && IsValidEmail(email)
              && Utf16Length(password) >= MinPasswordLength && password == confirmPassword
    ensures forall v, w :: Feedback(v).0 == Feedback(w).0 ==> v == w
  {
  }

  /** A password of exactly the minimum length passes the length check. */
  lemma MinimumLengthPasswordPasses(username: string, email: string, password: string)
    requires FieldsFilled(username, email, password) && IsValidEmail(email)
    requires Utf16Length(password) == MinPasswordLength
    ensures OnSignUpButton(username, email, password, password) == Accepted
  {
  }

  /** `LoadAccounts` of the sign-up form: the parsed list, or an empty list when the file is missing or parses to null. */
  function LoadAccounts(file: AccountFile): (accounts: seq<UserAccount>)
    ensures file.Parsed? && file.list.Some? ==> accounts == file.list.value
    ensures file.NoFile? || file.list.None? ==> accounts == []
  {
    match file
    case NoFile => []
    case Parsed(list) => list.GetOr([])
  }

  /** A stored account clashes with a new sign-up on its e-mail or its username, ignoring case. */
  predicate Clashes(account: UserAccount, username: string, email: string) {
    EqualsIgnoreCase(account.email, email) || EqualsIgnoreCase(account.username, username)
  }

  /** `AccountExistsLocally`: some stored account clashes with the new username or e-mail. */
  method AccountExistsLocally(file: AccountFile, username: string, email: string) returns (found: bool)
    ensures found <==> exists i :: 0 <= i < |LoadAccounts(file)| && Clashes(LoadAccounts(file)[i], username, email)
  {
    var accounts := LoadAccounts(file);
    var i := 0;
    while i < |accounts|
      invariant 0 <= i <= |accounts|
      invariant forall j :: 0 <= j < i ==> !Clashes(accounts[j], username, email)
    {
      if EqualsIgnoreCase(accounts[i].email, email) || EqualsIgnoreCase(accounts[i].username, username) {
        return true;
      }
      i := i + 1;
    }
    return false;
  }

  /**
   * `SaveAccountLocally`: the list written back is the loaded list with exactly
   * one new account appended; earlier accounts keep their place.
   */
  function SaveAccountLocally(file: AccountFile, username: string, email: string, userId: string, password: string)
    : (written: seq<UserAccount>)
    ensures |written| == |LoadAccounts(file)| + 1
    ensures written[..|written| - 1] == LoadAccounts(file)
    ensures written[|written| - 1] == NewUserAccount(username, email, userId, password)
  {
    LoadAccounts(file) + [NewUserAccount(username, email, userId, password)]
  }

  /** Once an account is saved, a new sign-up with the same e-mail, in any letter case, clashes with it. */
  lemma SavedAccountBlocksSameEmail(file: AccountFile, username: string, email: string, userId: string,
                                    password: string, otherUsername: string, otherEmail: string)
    requires EqualsIgnoreCase(email, otherEmail)
    ensures var written := SaveAccountLocally(file, username, email, userId, password);
            exists i :: 0 <= i < |written| && Clashes(written[i], otherUsername, otherEmail)
  {
    var written := SaveAccountLocally(file, username, email, userId, password);
    assert Clashes(written[|written| - 1], otherUsername, otherEmail);
  }
}

=== FILE: strings.dfy ===
/**
 * The string primitives the scripts rely on: ordinal `Contains`, `EndsWith`,
 * `ToLower`, the UTF-16 `Length`, and ordinal case-insensitive equality. Case folding covers the
 * ASCII letters only.
 */
module Strings {

  /** True when `needle` occurs in `hay` starting at position `i`. */
  predicate OccursAt(hay: string, needle: string, i: int) {
    0 <= i && i + |needle| <= |hay| && hay[i..i + |needle|] == needle
  }

  /** An occurrence in `hay` past its first character is an occurrence in `hay[1..]`, one place earlier. */
  lemma OccursLater(hay: string, needle: string)
    requires |hay| > 0
    ensures (exists i :: 1 <= i && OccursAt(hay, needle, i)) <==> (exists i :: OccursAt(hay[1..], needle, i))
  {
    if exists i :: 1 <= i && OccursAt(hay, needle, i) {
      var i :| 1 <= i && OccursAt(hay, needle, i);
      assert hay[1..][i - 1..i - 1 + |needle|] == hay[i..i + |needle|];
      assert OccursAt(hay[1..], needle, i - 1);
    }
    if exists i :: OccursAt(hay[1..], needle, i) {
      var i :| OccursAt(hay[1..], needle, i);
      assert hay[1..][i..i + |needle|] == hay[i + 1..i + 1 + |needle|];
      assert OccursAt(hay, needle, i + 1);
    }
  }

  /** Ordinal `string.Contains`: `needle` occurs somewhere in `hay` (the empty string occurs everywhere). */
  function Contains(hay: string, needle: string): (r: bool)
    ensures r <==> exists i :: OccursAt(hay, needle, i)
    decreases |hay|
  {
    if |hay| < |needle| then
      false
    else if needle <= hay then
      assert OccursAt(hay, needle, 0);
      true
    else
      assert !OccursAt(hay, needle, 0);
      OccursLater(hay, needle);
      Contains(hay[1..], needle)
  }

  /** `s.EndsWith(suffix)`. */
  predicate EndsWith(s: string, suffix: string) {
    |suffix| <= |s| && s[|s| - |suffix|..] == suffix
  }

  /** `char.ToLower` on the ASCII letters; every other character is left alone. */
  function LowerChar(c: char): char {
    if 'A' <= c <= 'Z' then (c as int - 'A' as int + 'a' as int) as char else c
  }

  /** `string.ToLower`, character by character. */
  function Lower(s: string): (r: string)
    ensures |r| == |s|
    ensures forall i :: 0 <= i < |s| ==> r[i] == LowerChar(s[i])
  {
    if s == [] then [] else [LowerChar(s[0])] + Lower(s[1..])
  }

  /** How many UTF-16 code units a character takes: two for a character outside the Basic Multilingual Plane. */
  function Utf16Units(c: char): nat {
    if c as int >= 0x1_0000 then 2 else 1
  }

  /** The positions of the characters outside the Basic Multilingual Plane. */
  function AstralPositions(s: string): set<nat> {
    set i: nat | i < |s| && s[i] as int >= 0x1_0000
  }

  /** Every position of a set moved one place later. */
  function ShiftByOne(positions: set<nat>): set<nat> {
    set i | i in positions :: i + 1
  }

  /** Moving every position one place later keeps their number. */
  lemma {:induction false} ShiftByOneKeepsSize(positions: set<nat>)
    ensures |ShiftByOne(positions)| == |positions|
    decreases |positions|
  {
    if positions != {} {
      var x :| x in positions;
      var rest := positions - {x};
      ShiftByOneKeepsSize(rest);
      forall y: nat ensures y in ShiftByOne(positions) <==> y in ShiftByOne(rest) + {x + 1} {
        if y > 0 {
          var j: nat := y - 1;
          assert y == j + 1;
          assert y in ShiftByOne(positions) <==> j in positions;
          assert y in ShiftByOne(rest) <==> j in rest;
        }
      }
      assert ShiftByOne(positions) == ShiftByOne(rest) + {x + 1};
      assert x + 1 !in ShiftByOne(rest);
    }
  }

  /** The astral positions of a string are those of its tail, one place later, plus position 0 when its first character is astral. */
  lemma AstralPositionsOfTail(s: string)
    requires |s| > 0
    ensures |AstralPositions(s)| == |AstralPositions(s[1..])| + (if s[0] as int >= 0x1_0000 then 1 else 0)
  {
    var head: set<nat> := if s[0] as int >= 0x1_0000 then {0} else {};
    assert AstralPositions(s) == head + ShiftByOne(AstralPositions(s[1..])) by {
      forall i: nat ensures i in AstralPositions(s) <==> i in head + ShiftByOne(AstralPositions(s[1..])) {
        if i > 0 && i < |s| {
          assert s[i] == s[1..][i - 1];
          var j: nat := i - 1;
          assert i == j + 1;
          assert i in AstralPositions(s) <==> j in AstralPositions(s[1..]);
        }
      }
    }
    ShiftByOneKeepsSize(AstralPositions(s[1..]));
    assert 0 !in ShiftByOne(AstralPositions(s[1..]));
  }

  /**
   * `string.Length`, which counts UTF-16 code units: one per character, and
   * one more for each character outside the Basic Multilingual Plane.
   */
  function Utf16Length(s: string): (n: nat)
    ensures n == |s| + |AstralPositions(s)|
    ensures |s| <= n <= 2 * |s|
    ensures n == |s| <==> forall i :: 0 <= i < |s| ==> s[i] as int < 0x1_0000
    decreases |s|
  {
    if s == [] then
      assert AstralPositions(s) == {};
      0
    else
      var rest := Utf16Length(s[1..]);
      assert forall i :: 1 <= i < |s| ==> s[i] == s[1..][i - 1];
      AstralPositionsOfTail(s);
      Utf16Units(s[0]) + rest
  }

  /** `a.Equals(b, StringComparison.OrdinalIgnoreCase)`. */
  predicate EqualsIgnoreCase(a: string, b: string) {
    Lower(a) == Lower(b)
  }
}

=== FILE: texture_spawning.dfy ===
/**
 * Texture-driven prefab placement, as both spawner components implement it:
 * the guards, the removal of the spawner's existing children, the pixel walk
 * (x outer, y inner) and the first-matching-colour rule. Colour matching and
 * the downward raycast are left abstract as predicates.
 */
module TextureSpawning {
  import opened Wrappers
  import opened Search

  /** A readable texture: its size and the colour `GetPixel(x, y)` returns. */
  datatype Texture<C> = Texture(width: nat, height: nat, pixel: (nat, nat) -> C)

  /** A spawned child of the spawner: which prefab, instantiated for which pixel. */
  datatype Spawn<P> = Spawn(prefab: P, x: nat, y: nat)

  /** A pixel position. */
  type Pos = (nat, nat)

  function PosOf<P>(s: Spawn<P>): Pos {
    (s.x, s.y)
  }

  /** The order of the pixel walk: column by column, and bottom to top within a column. */
  predicate Before(a: Pos, b: Pos) {
    a.0 < b.0 || (a.0 == b.0 && a.1 < b.1)
  }

  predicate InTexture<C>(t: Texture<C>, p: Pos) {
    p.0 < t.width && p.1 < t.height
  }

  /** Whether pixel (x, y) appears among the visited positions. */
  predicate Visited(visits: seq<Pos>, x: nat, y: nat) {
    exists k :: 0 <= k < |visits| && visits[k] == (x, y)
  }

  /** Whether some spawned child stands at pixel (x, y). */
  predicate SpawnedAt<P>(spawns: seq<Spawn<P>>, x: nat, y: nat) {
    exists k :: 0 <= k < |spawns| && spawns[k].x == x && spawns[k].y == y
  }

  /** The generation guards: a texture, at least one target colour, and as many prefabs as colours. */
  predicate CanGenerate<C, P>(texture: Option<Texture<C>>, colours: seq<C>, prefabs: seq<P>) {
    texture.Some? && |colours| == |prefabs| && |colours| != 0
  }

  /** The index of the first target colour the pixel colour matches. */
  function FirstMatchingColour<C>(pixel: C, colours: seq<C>, matches: (C, C) -> bool): Option<nat> {
    FirstWhere(colours, (c: C) => matches(pixel, c), 0)
  }

  /** The prefab a pixel yields: the one paired with its first matching colour, provided the raycast hits. */
  function PixelSpawn<C, P>(t: Texture<C>, colours: seq<C>, prefabs: seq<P>, matches: (C, C) -> bool,
                            hits: (nat, nat) -> bool, x: nat, y: nat): Option<P>
    requires |colours| == |prefabs|
  {
    match FirstMatchingColour(t.pixel(x, y), colours, matches)
    case None => None
    case Some(i) => if hits(x, y) then Some(prefabs[i]) else None
  }

  /**
   * Each pixel yields at most one prefab: the one paired with the first colour
   * it matches, and only if the raycast from that pixel hits; no match or a
   * miss yields nothing.
   */
  lemma PixelSpawnIsFirstMatch<C, P>(t: Texture<C>, colours: seq<C>, prefabs: seq<P>, matches: (C, C) -> bool,
                                     hits: (nat, nat) -> bool, x: nat, y: nat)
    requires |colours| == |prefabs|
    ensures PixelSpawn(t, colours, prefabs, matches, hits, x, y).Some? <==>
              hits(x, y) && exists i :: 0 <= i < |colours| && matches(t.pixel(x, y), colours[i])
    ensures forall i :: 0 <= i < |colours| && matches(t.pixel(x, y), colours[i]) && hits(x, y)
                        && (forall j :: 0 <= j < i ==> !matches(t.pixel(x, y), colours[j]))
                        ==> PixelSpawn(t, colours, prefabs, matches, hits, x, y) == Some(prefabs[i])
  {
  }

  /**
   * The spawner's children after `foreach (Transform child in transform)
   * DestroyImmediate(child.gameObject)` as written: the enumerator walks by
   * position while each destroy shifts the later children down one place.
   */
  function DestroyWhileEnumerating<T>(children: seq<T>, index: nat): seq<T>
    decreases |children| - index
  {
    if index < |children| then DestroyWhileEnumerating(children[..index] + children[index + 1..], index + 1)
    else children
  }

  /** The children at odd positions. */
  function OddPositions<T>(s: seq<T>): seq<T>
    decreases |s|
  {
    if |s| < 2 then [] else [s[1]] + OddPositions(s[2..])
  }

  /** As written, the loop destroys the children at even positions and leaves every odd-positioned one in place. */
  lemma {:induction false} DestroyWhileEnumeratingKeepsOdd<T>(kept: seq<T>, rest: seq<T>)
    ensures DestroyWhileEnumerating(kept + rest, |kept|) == kept + OddPositions(rest)
    decreases |rest|
  {
    if |rest| == 0 {
      assert kept + rest == kept;
    } else if |rest| == 1 {
      assert (kept + rest)[..|kept|] + (kept + rest)[|kept| + 1..] == kept;
    } else {
      var next := (kept + rest)[..|kept|] + (kept + rest)[|kept| + 1..];
      assert next == (kept + [rest[1]]) + rest[2..];
      DestroyWhileEnumeratingKeepsOdd(kept + [rest[1]], rest[2..]);
    }
  }

  /** Counterexample: with two children, the second survives the clearing loop. */
  lemma SecondChildSurvives<T>(a: T, b: T)
    ensures DestroyWhileEnumerating([a, b], 0) == [b]
  {
  }

  /**
   * The intended clearing, written as destroying the first child until none
   * is left (`while (transform.childCount > 0) DestroyImmediate(transform.GetChild(0).gameObject)`):
   * no existing child survives.
   */
  function ClearChildren<T>(children: seq<T>): (r: seq<T>)
    ensures |r| == 0
    decreases |children|
  {
    if |children| == 0 then children else ClearChildren(children[1..])
  }

  /** The pixel walk visits every pixel of the texture exactly once, in walk order, and nothing outside it. */
  ghost predicate WalksEveryPixel<C>(t: Texture<C>, visits: seq<Pos>) {
    && (forall k :: 0 <= k < |visits| ==> InTexture(t, visits[k]))
    && (forall k, l :: 0 <= k < l < |visits| ==> Before(visits[k], visits[l]))
    && (forall x: nat, y: nat :: x < t.width && y < t.height ==> Visited(visits, x, y))
  }

  /**
   * The spawned children are, in walk order, exactly the pixels of the texture
   * that yield a prefab, each carrying the prefab its pixel yields.
   */
  ghost predicate SpawnsExactly<C, P>(t: Texture<C>, colours: seq<C>, prefabs: seq<P>, matches: (C, C) -> bool,
                                hits: (nat, nat) -> bool, spawns: seq<Spawn<P>>)
    requires |colours| == |prefabs|
  {
    && (forall k :: 0 <= k < |spawns| ==> InTexture(t, PosOf(spawns[k])))
    && (forall k :: 0 <= k < |spawns| ==>
          PixelSpawn(t, colours, prefabs, matches, hits, spawns[k].x, spawns[k].y) == Some(spawns[k].prefab))
    && (forall k, l :: 0 <= k < l < |spawns| ==> Before(PosOf(spawns[k]), PosOf(spawns[l])))
    && (forall x: nat, y: nat ::
          (x < t.width && y < t.height && PixelSpawn(t, colours, prefabs, matches, hits, x, y).Some?)
          ==> SpawnedAt(spawns, x, y))
  }

  /**
   * The nested pixel loops of `GeneratePrefabsFromTexture`: x outer, y inner,
   * and for each pixel the prefab of its first matching colour when the
   * raycast hits.
   */
  method SpawnFromTexture<C, P>(t: Texture<C>, colours: seq<C>, prefabs: seq<P>, matches: (C, C) -> bool,
                                hits: (nat, nat) -> bool)
    returns (result: seq<Spawn<P>>, visits: seq<Pos>)
    requires |colours| == |prefabs|
    ensures WalksEveryPixel(t, visits)
    ensures SpawnsExactly(t, colours, prefabs, matches, hits, result)
  {
    result := [];
    visits := [];
    var x: nat := 0;
    while x < t.width
      invariant x <= t.width
      invariant forall k :: 0 <= k < |visits| ==> InTexture(t, visits[k]) && Before(visits[k], (x, 0))
      invariant forall k, l :: 0 <= k < l < |visits| ==> Before(visits[k], visits[l])
      invariant forall x': nat, y': nat :: x' < x && y' < t.height ==> Visited(visits, x', y')
      invariant forall k :: 0 <= k < |result| ==> InTexture(t, PosOf(result[k])) && Before(PosOf(result[k]), (x, 0))
      invariant forall k :: 0 <= k < |result| ==>
                  PixelSpawn(t, colours, prefabs, matches, hits, result[k].x, result[k].y) == Some(result[k].prefab)
      invariant forall k, l :: 0 <= k < l < |result| ==> Before(PosOf(result[k]), PosOf(result[l]))
      invariant forall x': nat, y': nat ::
                  (x' < x && y' < t.height && PixelSpawn(t, colours, prefabs, matches, hits, x', y').Some?)
                  ==> SpawnedAt(result, x', y')
    {
      var y: nat := 0;
      while y < t.height
        invariant y <= t.height
        invariant forall k :: 0 <= k < |visits| ==> InTexture(t, visits[k]) && Before(visits[k], (x, y))
        invariant forall k, l :: 0 <= k < l < |visits| ==> Before(visits[k], visits[l])
        invariant forall x': nat, y': nat :: (x' < x && y' < t.height) || (x' == x && y' < y) ==> Visited(visits, x', y')
        invariant forall k :: 0 <= k < |result| ==> InTexture(t, PosOf(result[k])) && Before(PosOf(result[k]), (x, y))
        invariant forall k :: 0 <= k < |result| ==>
                    PixelSpawn(t, colours, prefabs, matches, hits, result[k].x, result[k].y) == Some(result[k].prefab)
        invariant forall k, l :: 0 <= k < l < |result| ==> Before(PosOf(result[k]), PosOf(result[l]))
        invariant forall x': nat, y': nat ::
                    (((x' < x && y' < t.height) || (x' == x && y' < y))
                     && PixelSpawn(t, colours, prefabs, matches, hits, x', y').Some?)
                    ==> SpawnedAt(result, x', y')
      {
        var pixelColour := t.pixel(x, y);
        ghost var visitedBefore := visits;
        visits := visits + [(x, y)];
        assert visits[|visits| - 1] == (x, y);
        forall x': nat, y': nat | Visited(visitedBefore, x', y') ensures Visited(visits, x', y') {
          var k :| 0 <= k < |visitedBefore| && visitedBefore[k] == (x', y');
          assert visits[k] == visitedBefore[k];
        }
        var firstMatch := FirstMatchingColour(pixelColour, colours, matches);
        if firstMatch.Some? && hits(x, y) {
          ghost var spawnedBefore := result;
          result := result + [Spawn(prefabs[firstMatch.value], x, y)];
          assert result[|result| - 1].x == x && result[|result| - 1].y == y;
          forall x': nat, y': nat | SpawnedAt(spawnedBefore, x', y') ensures SpawnedAt(result, x', y') {
            var k :| 0 <= k < |spawnedBefore| && spawnedBefore[k].x == x' && spawnedBefore[k].y == y';
            assert result[k] == spawnedBefore[k];
          }
        }
        y := y + 1;
      }
      x := x + 1;
    }
  }

  /**
   * `GeneratePrefabsFromTexture`, as written. When a guard fails, nothing is
   * visited and the children are untouched. Otherwise the clearing loop
   * leaves the children at odd positions in place, every pixel is visited
   * once in walk order, and the new children `spawns` follow the survivors.
   */
  method GeneratePrefabsFromTexture<C, P>(texture: Option<Texture<C>>, colours: seq<C>, prefabs: seq<P>,
                                          children: seq<Spawn<P>>, matches: (C, C) -> bool, hits: (nat, nat) -> bool)
    returns (result: seq<Spawn<P>>, spawns: seq<Spawn<P>>, visits: seq<Pos>)
    ensures !CanGenerate(texture, colours, prefabs) ==> result == children && spawns == [] && visits == []
    ensures CanGenerate(texture, colours, prefabs) ==> result == OddPositions(children) + spawns
    ensures CanGenerate(texture, colours, prefabs) ==>
              WalksEveryPixel(texture.value, visits) && SpawnsExactly(texture.value, colours, prefabs, matches, hits, spawns)
  {
    if texture.None? {
      return children, [], [];
    }
    if |colours| != |prefabs| || |colours| == 0 {
      return children, [], [];
    }
    var survivors := DestroyWhileEnumerating(children, 0);
    DestroyWhileEnumeratingKeepsOdd([], children);
    assert [] + children == children;
    spawns, visits := SpawnFromTexture(texture.value, colours, prefabs, matches, hits);
    result := survivors + spawns;
  }

  /**
   * Generation with the intended clearing: the same guards and walk, but no
   * existing child survives, so the children are exactly the new spawns.
   */
  method GeneratePrefabsClearingFirst<C, P>(texture: Option<Texture<C>>, colours: seq<C>, prefabs: seq<P>,
                                            children: seq<Spawn<P>>, matches: (C, C) -> bool, hits: (nat, nat) -> bool)
    returns (result: seq<Spawn<P>>, visits: seq<Pos>)
    ensures !CanGenerate(texture, colours, prefabs) ==> result == children && visits == []
    ensures CanGenerate(texture, colours, prefabs) ==>
              WalksEveryPixel(texture.value, visits) && SpawnsExactly(texture.value, colours, prefabs, matches, hits, result)
  {
    if texture.None? {
      return children, [];
    }
    if |colours| != |prefabs| || |colours| == 0 {
      return children, [];
    }
    var spawns;
    spawns, visits := SpawnFromTexture(texture.value, colours, prefabs, matches, hits);
    result := ClearChildren(children) + spawns;
    assert result == spawns;
  }
}

=== FILE: user_account.dfy ===
/** The stored login accounts (`UserAccount`, `AccountList`) and what reading their file can yield. */
module UserAccounts {
  import opened Wrappers

  /** One saved account. The password is kept verbatim. */
  datatype UserAccount = UserAccount(username: string, email: string, userId: string, password: string)

  /** The serialised wrapper around the account list; it enforces no uniqueness. */
  datatype AccountList = AccountList(accounts: seq<UserAccount>)

  /** The `UserAccount` constructor: every field, the password included, is stored as passed. */
  function NewUserAccount(username: string, email: string, userId: string, password: string): (a: UserAccount)
    ensures a.username == username && a.email == email && a.userId == userId
    ensures a.password == password
  {
    UserAccount(username, email, userId, password)
  }

  /** The `AccountList` constructor: it holds the given list, in the given order. */
  function NewAccountList(accounts: seq<UserAccount>): (l: AccountList)
    ensures |l.accounts| == |accounts|
    ensures forall i :: 0 <= i < |accounts| ==> l.accounts[i] == accounts[i]
  {
    AccountList(accounts)
  }

  /** An account list may hold the same account twice. */
  lemma AccountListAdmitsDuplicates(a: UserAccount)
    ensures var l := NewAccountList([a, a]); |l.accounts| == 2 && l.accounts[0] == l.accounts[1]
  {
  }

  /**
   * What reading the account file gives: no file, or the list the parser
   * produced (`None` when the parsed wrapper or its list is null).
   */
  datatype AccountFile = NoFile | Parsed(list: Option<seq<UserAccount>>)
}

=== FILE: users_login.dfy ===
/**
 * The login screen (`UsersLogin`): reloading the account list, the guards of
 * the confirm and delete buttons, delete-by-slot and the slot labels.
 */
module UsersLogin {
  import opened Wrappers
  import opened UserAccounts
  import NewUserSignUp

  /** The label of a slot with no account behind it. */
  const NoAccountLabel: string := "No Account"

  /**
   * `LoadAccounts` of the login screen: a missing file keeps the list already
   * in memory; otherwise the list becomes what the file parses to (empty for null).
   */
  function LoadAccounts(file: AccountFile, current: seq<UserAccount>): (accounts: seq<UserAccount>)
    ensures file.NoFile? ==> accounts == current
    ensures file.Parsed? && file.list.Some? ==> accounts == file.list.value
    ensures file.Parsed? && file.list.None? ==> accounts == []
  {
    match file
    case NoFile => current
    case Parsed(list) => list.GetOr([])
  }

  /** The login screen and the sign-up form read a present file the same way; they differ only on a missing file. */
  lemma LoadersAgreeOnPresentFile(file: AccountFile, current: seq<UserAccount>)
    ensures file.Parsed? ==> LoadAccounts(file, current) == NewUserSignUp.LoadAccounts(file)
    ensures file.NoFile? ==> NewUserSignUp.LoadAccounts(file) == [] && LoadAccounts(file, current) == current
  {
  }

  /** What pressing a slot's confirm button leads to. */
  datatype ConfirmOutcome =
    | NoAccountInSlot          // "No account associated with this slot."
    | PasswordMissing          // "Please enter your password."
    | InputFieldMissing        // the slot has an account but no password field: the array index throws
    | SignInAttempt(email: string, password: string)

  /**
   * `OnConfirmButtonPressed`: a slot without an account, or an empty password,
   * is rejected before any sign-in; otherwise sign-in is attempted with the
   * slot's e-mail and the entered password.
   */
  function OnConfirmButtonPressed(accounts: seq<UserAccount>, passwordInputs: seq<string>, slotIndex: int)
    : (o: ConfirmOutcome)
    ensures !(0 <= slotIndex < |accounts|) ==> o == NoAccountInSlot
    ensures 0 <= slotIndex < |accounts| && slotIndex >= |passwordInputs| ==> o == InputFieldMissing
    ensures 0 <= slotIndex < |accounts| && slotIndex < |passwordInputs| && passwordInputs[slotIndex] == [] ==>
              o == PasswordMissing
    ensures o.SignInAttempt? <==> 0 <= slotIndex < |accounts| && slotIndex < |passwordInputs| && passwordInputs[slotIndex] != []
    ensures o.SignInAttempt? ==> o.email == accounts[slotIndex].email && o.password == passwordInputs[slotIndex]
  {
    if slotIndex < 0 || slotIndex >= |accounts| then NoAccountInSlot
    else
      var email := accounts[slotIndex].email;
      if slotIndex >= |passwordInputs| then InputFieldMissing
      else
        var enteredPassword := passwordInputs[slotIndex];
        if enteredPassword == [] then PasswordMissing
        else SignInAttempt(email, enteredPassword)
  }

  /** The login screen's state touched by a delete: the list, what was written to the file, and the sign-in flag. */
  datatype DeleteResult = DeleteResult(accounts: seq<UserAccount>, written: Option<seq<UserAccount>>, isAuthenticated: bool)

  /**
   * `OnDeleteButtonPressed`: an empty slot changes nothing; otherwise exactly the
   * slot's account is removed, the others keep their order, the new list is
   * written to the file and the player is no longer authenticated.
   */
  function OnDeleteButtonPressed(accounts: seq<UserAccount>, isAuthenticated: bool, slotIndex: int): (r: DeleteResult)
    ensures !(0 <= slotIndex < |accounts|) ==> r == DeleteResult(accounts, None, isAuthenticated)
    ensures 0 <= slotIndex < |accounts| ==>
              && |r.accounts| == |accounts| - 1
              && (forall j :: 0 <= j < slotIndex ==> r.accounts[j] == accounts[j])
              && (forall j :: slotIndex <= j < |r.accounts| ==> r.accounts[j] == accounts[j + 1])
              && r.written == Some(r.accounts)
              && !r.isAuthenticated
  {
    if slotIndex < 0 || slotIndex >= |accounts| then
      DeleteResult(accounts, None, isAuthenticated)
    else
      var remaining := accounts[..slotIndex] + accounts[slotIndex + 1..];
      DeleteResult(remaining, Some(remaining), false)
  }

  /** Putting the deleted account back at its slot restores the list: a delete removes that one account and nothing else. */
  lemma DeleteThenReinsertRestores(accounts: seq<UserAccount>, isAuthenticated: bool, slotIndex: int)
    requires 0 <= slotIndex < |accounts|
    ensures var rest := OnDeleteButtonPressed(accounts, isAuthenticated, slotIndex).accounts;
            rest[..slotIndex] + [accounts[slotIndex]] + rest[slotIndex..] == accounts
    ensures var rest := OnDeleteButtonPressed(accounts, isAuthenticated, slotIndex).accounts;
            multiset(rest) + multiset{accounts[slotIndex]} == multiset(accounts)
  {
  }

  /**
   * `UpdateSlots`: slot i shows the i-th account's username, or "No Account"
   * past the end of the list; accounts beyond the last slot are not shown.
   */
  method UpdateSlots(accounts: seq<UserAccount>, slotCount: nat) returns (labels: seq<string>)
    ensures |labels| == slotCount
    ensures forall i :: 0 <= i < slotCount && i < |accounts| ==> labels[i] == accounts[i].username
    ensures forall i :: |accounts| <= i < slotCount ==> labels[i] == NoAccountLabel
  {
    labels := [];
    var i := 0;
    while i < slotCount
      invariant 0 <= i <= slotCount
      invariant |labels| == i
      invariant forall j :: 0 <= j < i && j < |accounts| ==> labels[j] == accounts[j].username
      invariant forall j :: |accounts| <= j < i ==> labels[j] == NoAccountLabel
    {
      if i < |accounts| {
        labels := labels + [accounts[i].username];
      } else {
        labels := labels + [NoAccountLabel];
      }
      i := i + 1;
    }
  }
}

=== FILE: wrappers.dfy ===
/** The conventional optional value, standing in for C#'s `null`. */
module Wrappers {

  datatype Option<+T> = None | Some(value: T) {

    /** The wrapped value, or `default` when there is none. */
    function GetOr(default: T): T {
      match this
      case Some(v) => v
      case None => default
    }
  }
}
